=== FILE: README.md ===
# Forms content provider of ODK Collect, in Dafny

This project models the forms content provider of ODK Collect (`FormsProvider`). The provider is the URI-addressed front door to the table of blank forms.

It recognises three addresses:
- the forms collection;
- one form by its numeric id;
- the "newest form per form id" view.

Over these addresses it offers five operations:
- `query`, which returns a cursor that watches the address it was asked for;
- `getType`, which reports a directory or item MIME type;
- `insert`, which is allowed only on the collection and returns the new row's item URI;
- `update`, which merges the given values into each addressed row instead of overwriting it;
- `delete`, which hands each addressed id to the form deleter so that dependent data is cleaned up too.

Update and delete notify content observers afterwards. The static `notifyChange()` tells observers of both the collection and the newest-forms view.

The model is a set of pure functions over an immutable `Store`. A `Store` holds three things:
- the forms repository: a table from row id to `Form`, plus the next id the database will hand out;
- a log of the ids passed to the form deleter;
- a log of the URIs the content resolver was told about.

A thrown `IllegalArgumentException("Unknown URI …")` becomes `Err(UnknownUri(uri))`.

Modules:
- `Results` holds `Option` and `Result`.
- `SqlValues` holds SQLite values and their ordering: NULL < INTEGER < TEXT, with TEXT ordered lexicographically.
- `Forms` holds the seventeen columns, the `Form` record and ContentValues. It also holds the two conversions `getFormFromValues` and `getValuesFromForm`, and the column-wise merge.
- `Uris` holds the URI matcher and the item URI of an id.
- `Repository` models `rawQuery` and `save`.
  - A WHERE clause is a small selection language evaluated with SQL three-valued logic.
  - A scan without a sort order yields rows in ascending id order.
  - An ORDER BY reorders the result after any grouping.
  - `GROUP BY` with `MAX(date)` keeps one row per group, carrying the group's greatest date.
  - `save` is by identity. A fresh id comes from a counter that only grows, so ids are assumed never to be reused.
- `Ordering` holds the ORDER BY of a query (one column and a direction) and the sort that applies it.
- `NewestView` specifies the grouped scan and builds it row by row.
- `FormsProvider` holds the provider operations.
- `FormsProviderProperties` holds properties that relate several calls.

Some behaviours of the code that a caller might not expect, all modelled as the code has them:
- update and delete notify the URI they were given, not always the collection URI;
- insert sends no change notification;
- insert on any address other than the collection raises "Unknown URI";
- delete by id returns 1 whether or not the row existed;
- the newest-forms view does not hide soft-deleted forms (those with a deleted date);
- the newest-forms view applies the caller's selection as the WHERE clause of the grouped query, so rows are filtered before grouping, not after.

## Model

| member | source | states |
|---|---|---|
| Uris.Match | collect_app/src/main/java/org/odk/collect/android/provider/FormsProvider.java:229-234 | The matcher accepts exactly the collection path, the collection path followed by one all-digit segment, and the newest-forms path. Each of the three match codes holds if and only if its URI shape holds, and anything else is no match. |
| Uris.Classify | collect_app/src/main/java/org/odk/collect/android/provider/FormsProvider.java:229-234 | The route is the collection if and only if the URI is CONTENT_URI, and the newest view if and only if it is CONTENT_NEWEST_FORMS_BY_FORMID_URI. It is a single form if and only if the "#" pattern matches, and then its id is the decimal value of the last segment. Otherwise there is no route. |
| Uris.ParseNatToString | collect_app/src/main/java/org/odk/collect/android/provider/FormsProvider.java:102 | Parsing the decimal text of a non-negative id gives that id back, so `getIdFromUri` inverts `String.valueOf`. |
| Uris.ParseNumber | collect_app/src/main/java/org/odk/collect/android/provider/FormsProvider.java:102 | The id `getIdFromUri` reads from a digit segment of k digits is below 10^k. `Uris.ParseNatToString` states that it inverts the decimal text of an id. |
| Uris.ItemUri | collect_app/src/main/java/org/odk/collect/android/provider/FormsProvider.java:147 | The URI `withAppendedPath(CONTENT_URI, String.valueOf(id))` has the collection's authority and path plus one segment. The "#" pattern matches it exactly when the id is not negative, since a negative id's text starts with '-'. |
| Uris.ItemUriRoundTrip | collect_app/src/main/java/org/odk/collect/android/provider/FormsProvider.java:147 | The URI that insert builds with `withAppendedPath(CONTENT_URI, id)` is classified as the single-form route for that same id. |
| Forms.FromValues | collect_app/src/main/java/org/odk/collect/android/provider/FormsProvider.java:146 | A form built from values has an id exactly when the values carry an integer `_ID`, and that id is the value's number. |
| Forms.FromValuesColumn | collect_app/src/main/java/org/odk/collect/android/provider/FormsProvider.java:146 | Every non-id column of the rebuilt form is the value the bag holds for it, or NULL when the bag lacks that column. |
| Forms.ValuesRoundTrip | collect_app/src/main/java/org/odk/collect/android/provider/FormsProvider.java:197-202 | Rebuilding a form from its own values (`getFormFromValues(getValuesFromForm(f))`) gives the same form back, so saving an unchanged row changes nothing. |
| Forms.ToValues | collect_app/src/main/java/org/odk/collect/android/provider/FormsProvider.java:197-199 | `getValuesFromForm` puts every column, `_ID` included, into the bag. `Forms.ToValuesColumn` states that each column holds the form's value, and `Forms.ValuesRoundTrip` that rebuilding gives the form back. |
| Forms.Merge | collect_app/src/main/java/org/odk/collect/android/provider/FormsProvider.java:199-202 | The update step for one row. It has no contract of its own: `Forms.MergeIsPutAll` states that it equals `putAll` over the row's values followed by rebuilding the form, and the `Forms.Merge*` lemmas below state its column-by-column behaviour. |
| Forms.MergeIsPutAll | collect_app/src/main/java/org/odk/collect/android/provider/FormsProvider.java:199-202 | The column-wise `Merge` equals reading the row's values, laying the caller's values over them with `putAll`, and rebuilding the form. |
| Forms.MergeKeepsAbsentColumns | collect_app/src/main/java/org/odk/collect/android/provider/FormsProvider.java:210-215 | An update merges rather than overwrites. Each non-id column the caller names takes the caller's value, and every column the caller does not name keeps its prior value. |
| Forms.MergeKeepsId | collect_app/src/main/java/org/odk/collect/android/provider/FormsProvider.java:212-215 | Unless the caller's values contain `_ID`, the merged form keeps the id of the row it was read from. |
| Forms.MergeEmpty | collect_app/src/main/java/org/odk/collect/android/provider/FormsProvider.java:212-215 | An update with no values leaves the form unchanged. |
| Forms.MergeIdempotent | collect_app/src/main/java/org/odk/collect/android/provider/FormsProvider.java:212-215 | Applying the same values twice gives the same form as applying them once. |
| Repository.ScanIds | collect_app/src/main/java/org/odk/collect/android/provider/FormsProvider.java:165-167 | The ids a `rawQuery(null, where, …)` cursor visits are in strictly increasing order. An id is visited if and only if it is stored and its row satisfies the WHERE clause. |
| Repository.ScanById | collect_app/src/main/java/org/odk/collect/android/provider/FormsProvider.java:103 | The `_ID=?` scan over a table finds `[id]` when that id is stored and nothing otherwise. |
| Repository.RawQuery | collect_app/src/main/java/org/odk/collect/android/provider/FormsProvider.java:98 | Without a grouping column the result holds exactly the scanned rows, and without a sort order it is the scan itself. With a grouping column the result is a correct newest-per-group view of that scan (`NewestView.IsNewestView`). With a sort order the result is ordered by it. |
| Ordering.SortRows | collect_app/src/main/java/org/odk/collect/android/provider/FormsProvider.java:98 | The rows after an ORDER BY are a permutation of the rows before it, and each row may precede every later row under the sort key and direction. |
| Ordering.InsertSorted | collect_app/src/main/java/org/odk/collect/android/provider/FormsProvider.java:98 | Inserting one row into a sorted sequence keeps it sorted and adds exactly that row. |
| Ordering.TwoSorted | collect_app/src/main/java/org/odk/collect/android/provider/FormsProvider.java:98 | For two rows of which the first may not precede the second, the only sorted arrangement is the second row, then the first. |
| NewestView.PermutedViewIsNewest | collect_app/src/main/java/org/odk/collect/android/provider/FormsProvider.java:110 | Any reordering of a correct grouped view is still correct, so an ORDER BY on the newest-forms query keeps one row per form id, carrying the greatest date. |
| Repository.Save | collect_app/src/main/java/org/odk/collect/android/provider/FormsProvider.java:146 | A form with an id is stored under that id. A form without one gets `nextId`, which is not yet in use. Either way the row stored is the form stamped with its id, and the repository invariant (each row carries its own id, below `nextId`) is kept. |
| NewestView.NewestPerGroup | collect_app/src/main/java/org/odk/collect/android/provider/FormsProvider.java:107-110 | Building the view row by row gives a correct GROUP BY answer. Every returned row is a scanned row, no group is returned twice, every scanned group is returned, and each returned row carries its group's greatest date. |
| NewestView.AbsorbPreserves | collect_app/src/main/java/org/odk/collect/android/provider/FormsProvider.java:107-110 | Folding one more scanned row into a correct view yields a correct view of the longer scan. |
| NewestView.NewestViewGroupsDetermined | collect_app/src/main/java/org/odk/collect/android/provider/FormsProvider.java:107-110 | Any two correct views of one scan contain the same groups. |
| NewestView.NewestPerGroupNoLonger | collect_app/src/main/java/org/odk/collect/android/provider/FormsProvider.java:107-110 | The grouped result is never longer than the scan. |
| NewestView.LaterVersionWins | collect_app/src/main/java/org/odk/collect/android/provider/FormsProvider.java:106-110 | When two scanned forms share a form id and the second has the later date, the only correct view is the later form alone. |
| FormsProvider.NewestProjection | collect_app/src/main/java/org/odk/collect/android/provider/FormsProvider.java:108-109 | The newest-forms projection contains MAX(date) and every column other than DATE, does not contain DATE, and contains nothing else. |
| FormsProvider.NotifyChange | collect_app/src/main/java/org/odk/collect/android/provider/FormsProvider.java:75-79 | `notifyChange()` tells the resolver about the collection URI and then the newest-forms URI, and touches neither the table nor the deleter log. |
| FormsProvider.Query | collect_app/src/main/java/org/odk/collect/android/provider/FormsProvider.java:91-120 | An unknown URI raises Unknown URI, and every other URI yields a cursor that watches that URI. The collection passes projection, selection and sort order through ungrouped. It returns exactly the matching rows, ordered by the sort order when one is given and in ascending id order otherwise. A single form ignores the caller's arguments and returns that row or nothing. The newest view uses the MAX(date) projection grouped by JR_FORM_ID and returns a correct newest-per-form-id view of the matching rows, ordered by the caller's sort order when one is given. |
| FormsProvider.GetType | collect_app/src/main/java/org/odk/collect/android/provider/FormsProvider.java:122-135 | The collection and the newest view are directories, and a single form is an item. Anything else, and only that, raises Unknown URI. |
| FormsProvider.Insert | collect_app/src/main/java/org/odk/collect/android/provider/FormsProvider.java:137-148 | Insert fails with Unknown URI exactly when the URI is not the collection URI. On success the form built from the values is stored under the saved id, the item URI of that id is returned, and nothing is notified or cascaded. Without an integer `_ID`, exactly one new row appears, under a fresh id. |
| FormsProvider.UpdateCollection | collect_app/src/main/java/org/odk/collect/android/provider/FormsProvider.java:194-207 | When the values do not set `_ID`, every row the WHERE clause matched is replaced by its merge and every other row is kept. The count is the number of matched rows. The given URI and the newest-forms URI are notified, and the repository invariant is kept. |
| FormsProvider.SaveMergedRow | collect_app/src/main/java/org/odk/collect/android/provider/FormsProvider.java:210-215 | Saving the merge of a stored row replaces that row with the merge, when the values do not set `_ID`. |
| FormsProvider.UpdateById | collect_app/src/main/java/org/odk/collect/android/provider/FormsProvider.java:209-217 | Update of a missing id raises FormNotFound. Otherwise the row becomes its merge with the values, the count is 1, and the given URI and the newest-forms URI are notified. |
| FormsProvider.Update | collect_app/src/main/java/org/odk/collect/android/provider/FormsProvider.java:188-227 | The newest view and unknown URIs raise Unknown URI. On success the given URI and then the newest-forms URI are appended to the notifications, and the deleter log is untouched. The collection returns the matched count and replaces each matched row by its merge. A single form returns 1 after replacing the row by its merge. |
| FormsProvider.FormDeleterDelete | collect_app/src/main/java/org/odk/collect/android/provider/FormsProvider.java:175 | One `formDeleter.delete(id)` removes that row, keeps every other row, appends the id to the cascade log once, and changes neither `nextId` nor the notifications. |
| FormsProvider.DeleteEach | collect_app/src/main/java/org/odk/collect/android/provider/FormsProvider.java:165-168 | Handing the scanned ids to the form deleter in order appends them to the cascade log and removes exactly those rows. |
| FormsProvider.Delete | collect_app/src/main/java/org/odk/collect/android/provider/FormsProvider.java:155-186 | The newest view and unknown URIs raise Unknown URI. The collection deletes and cascades every matched id in scan order and returns their number. A single form is handed to the deleter and 1 is returned. Both notify the given URI and then the newest-forms URI, and never change `nextId`. |
| FormsProvider.SaveMerged | collect_app/src/main/java/org/odk/collect/android/provider/FormsProvider.java:196-203 | Saving the merges of the snapshot rows one after another keeps the repository invariant. `FormsProvider.SaveMergedSnapshot` states which rows result. |
| FormsProvider.SaveMergedSnapshot | collect_app/src/main/java/org/odk/collect/android/provider/FormsProvider.java:195-203 | Saving the merged snapshot rows one by one leaves each listed row merged and every other row as it was. |
| FormsProviderProperties.UpdateCollectionMergesMatchedRows | collect_app/src/main/java/org/odk/collect/android/provider/FormsProvider.java:194-207 | An update through the collection that does not set `_ID` merges exactly the matched rows, leaves all other rows alone, and neither adds nor removes a row. |
| FormsProviderProperties.DeleteCascadesOncePerMatch | collect_app/src/main/java/org/odk/collect/android/provider/FormsProvider.java:164-171 | A collection delete runs the form deleter exactly once for each matched row and never for any other id, after whatever was logged before. |
| FormsProviderProperties.InsertThenQueryById | collect_app/src/main/java/org/odk/collect/android/provider/FormsProvider.java:137-148 | A form inserted without an explicit `_ID` can be read back through the URI insert returned, and that query yields exactly the inserted form. |
| FormsProviderProperties.DeletedIdNotReused | collect_app/src/main/java/org/odk/collect/android/provider/FormsProvider.java:174-177 | Given the assumed id allocator (a counter that only grows, in `Repository.Save`), the next insert without an explicit `_ID` after a delete by id gets a different id. This follows from that assumption, not from the provider. |
| FormsProviderProperties.QueryByIdIgnoresCallerArguments | collect_app/src/main/java/org/odk/collect/android/provider/FormsProvider.java:101-104 | A single-form query answers the same whatever projection, selection and sort order the caller passes. |
| FormsProviderProperties.NewestScenario | collect_app/src/main/java/org/odk/collect/android/provider/FormsProvider.java:106-110 | Take two stored downloads of one form id where the second is later. The collection query returns both, in id order, and the newest-forms query returns only the later one. |
| FormsProviderProperties.SortedScenario | collect_app/src/main/java/org/odk/collect/android/provider/FormsProvider.java:97-98 | The same two downloads, queried through the collection with `ORDER BY date DESC`, come back with the later one first. |
| FormsProviderProperties.UpdateByIdWithoutIntegerIdCopies | collect_app/src/main/java/org/odk/collect/android/provider/FormsProvider.java:210-215 | An update by id whose values set `_ID` to NULL, or to any text in this model (which converts no value types), rebuilds a form without an id. The repository saves it as a new row under the fresh id and keeps the original row unchanged. |

## Left out

- Android plumbing is not modelled: `onCreate`, `deferDaggerInit`, dependency injection, the content resolver object and `synchronized`. The model is sequential, and notifications are entries in a log.
- FormsProvider.Query: the sort order is SQL text in the source. Here it is one column and a direction, so multi-column orderings and expressions are not modelled. Without a sort order the rows are taken to come back in ascending id order, which is how SQLite scans a rowid table; SQL itself promises no order there.
- Repository.Save: the forms table schema is not part of this model. Ids are assumed to come from a counter that is never lowered. A rowid table without AUTOINCREMENT may instead reuse the largest deleted id.
- Projection is carried into the scan request but does not narrow the rows' columns. A cursor's rows are whole forms.
- Selection arguments (`whereArgs`) are folded into the selection. A WHERE clause is the small `Selection` language, not SQL text.
- The real text of CONTENT_URI, CONTENT_NEWEST_FORMS_BY_FORMID_URI and the authority lives in FormsProviderAPI, which is not part of this model. The constants here are representative.
- FormUtils, FormsRepository and FormDeleter are not part of this model. Their effects are modelled as follows:
  - the conversion between forms and values is a lossless round trip, and the storage-path conversion is the identity;
  - `save` is by identity, with the assumed id counter described on the Repository.Save line;
  - the form deleter removes the row and records the id. The files on disk, the instances and the itemsets it also cleans up are represented only by that record.
- Forms.FromValues: `FormUtils.getFormFromValues` is not part of this model, and neither are the type conversions it makes into the typed fields of a Java `Form`. Here an `_ID` counts as an id only when it is an integer value. A text `_ID` gives no id, even text of digits that a conversion to a long would read as a number.
- Forms.FromValuesColumn: every column other than `_ID` keeps the value type the caller put in the bag. A conversion into typed fields is not modelled, so text stored in DATE stays text, and in the newest view it ranks above every integer date, as SQLite orders mixed values.
- Uris.Classify: `getIdFromUri` parses into a Java long. Ids are unbounded here, so a digit string too large for a long is not rejected.
- FormsProvider.UpdateById: the source takes the row from `formsRepository.get` and dereferences it. The behaviour for a missing id lives in code that is not part of this model. It is modelled as the error FormNotFound. Its merged-row replacement is stated only when the caller's values do not set `_ID`, as for FormsProvider.Update.
- FormsProvider.UpdateCollection: the merged-row replacement is stated only when the caller's values do not set `_ID`, for the same reason as for FormsProvider.Update.
- FormsProvider.Update: the merged-row replacement is stated only when the caller's values do not set `_ID`. With an integer `_ID` the merge is saved under that id. With any other `_ID` value (NULL, or any text in this model, which converts no value types) it is saved as a new row under a fresh id and the original row is kept, so a collection update copies every matched row (FormsProviderProperties.UpdateByIdWithoutIntegerIdCopies states the by-id case).
- FormsProvider.Insert: the exactly-one-new-row statement is made only without an integer `_ID`. With one, `save` replaces or creates the row with that id.
- Failures of the repository or the form deleter part-way through a batch are not modelled, and neither is a cursor that is closed early.
- The context files around the provider are not modelled: the preference migrator, the widgets and the tests.

=== FILE: forms.dfy ===
/**
 * The form record, its columns, and the key/value bag ("content values")
 * callers hand to insert and update. The conversion between the two
 * (FormUtils.getFormFromValues / getValuesFromForm) is modelled as a
 * lossless round trip; storage-root path rewriting is the identity here.
 */
module Forms {
  import opened Results
  import opened SqlValues

  /** The seventeen columns of the forms table. */
  datatype Column =
    | Id | DisplayName | Description | JrFormId | JrVersion | SubmissionUri
    | Base64RsaPublicKey | Md5Hash | Date | FormMediaPath | FormFilePath
    | JrCacheFilePath | Language | AutoDelete | AutoSend | GeometryXpath
    | DeletedDate

  const AllColumns: set<Column> :=
    {Id, DisplayName, Description, JrFormId, JrVersion, SubmissionUri,
     Base64RsaPublicKey, Md5Hash, Date, FormMediaPath, FormFilePath,
     JrCacheFilePath, Language, AutoDelete, AutoSend, GeometryXpath,
     DeletedDate}

  lemma AllColumnsComplete(c: Column)
    ensures c in AllColumns
  {
  }

  /** A form row. `id` is None for a form not yet saved. */
  datatype Form = Form(
    id: Option<int>,
    displayName: Value,
    description: Value,
    jrFormId: Value,
    jrVersion: Value,
    submissionUri: Value,
    base64RsaPublicKey: Value,
    md5Hash: Value,
    date: Value,
    formMediaPath: Value,
    formFilePath: Value,
    jrCacheFilePath: Value,
    language: Value,
    autoDelete: Value,
    autoSend: Value,
    geometryXpath: Value,
    deletedDate: Value)

  /** A ContentValues bag: the columns a caller sets, with their values. */
  type ContentValues = map<Column, Value>

  /** The value a form holds in column `c`, as a cursor would report it. */
  function Get(f: Form, c: Column): Value {
    match c
    case Id => if f.id.Some? then Integer(f.id.value) else Null
    case DisplayName => f.displayName
    case Description => f.description
    case JrFormId => f.jrFormId
    case JrVersion => f.jrVersion
    case SubmissionUri => f.submissionUri
    case Base64RsaPublicKey => f.base64RsaPublicKey
    case Md5Hash => f.md5Hash
    case Date => f.date
    case FormMediaPath => f.formMediaPath
    case FormFilePath => f.formFilePath
    case JrCacheFilePath => f.jrCacheFilePath
    case Language => f.language
    case AutoDelete => f.autoDelete
    case AutoSend => f.autoSend
    case GeometryXpath => f.geometryXpath
    case DeletedDate => f.deletedDate
  }

  function Lookup(cv: ContentValues, c: Column): Value {
    if c in cv then cv[c] else Null
  }

  /** getFormFromValues: absent columns are NULL; an integer _ID names the row. */
  function FromValues(cv: ContentValues): (f: Form)
    ensures f.id.Some? <==> Id in cv && cv[Id].Integer?
    ensures f.id.Some? ==> cv[Id] == Integer(f.id.value)
  {
    var idValue := Lookup(cv, Id);
    Form(
      if idValue.Integer? then Some(idValue.n) else None,
      Lookup(cv, DisplayName), Lookup(cv, Description), Lookup(cv, JrFormId),
      Lookup(cv, JrVersion), Lookup(cv, SubmissionUri),
      Lookup(cv, Base64RsaPublicKey), Lookup(cv, Md5Hash), Lookup(cv, Date),
      Lookup(cv, FormMediaPath), Lookup(cv, FormFilePath),
      Lookup(cv, JrCacheFilePath), Lookup(cv, Language), Lookup(cv, AutoDelete),
      Lookup(cv, AutoSend), Lookup(cv, GeometryXpath), Lookup(cv, DeletedDate))
  }

  /** Every column other than _ID of a rebuilt form is what the bag held, NULL if absent. */
  lemma FromValuesColumn(cv: ContentValues, c: Column)
    requires c != Id
    ensures Get(FromValues(cv), c) == (if c in cv then cv[c] else Null)
  {
    match c {
      case DisplayName =>
      case Description =>
      case JrFormId =>
      case JrVersion =>
      case SubmissionUri =>
      case Base64RsaPublicKey =>
      case Md5Hash =>
      case Date =>
      case FormMediaPath =>
      case FormFilePath =>
      case JrCacheFilePath =>
      case Language =>
      case AutoDelete =>
      case AutoSend =>
      case GeometryXpath =>
      case DeletedDate =>
    }
  }

  /** getValuesFromForm: every column, including _ID. */
  function ToValues(f: Form): (cv: ContentValues)
    ensures cv.Keys == AllColumns
  {
    map c | c in AllColumns :: Get(f, c)
  }

  /** Each column of the bag holds the form's value in that column. */
  lemma ToValuesColumn(f: Form, c: Column)
    ensures Lookup(ToValues(f), c) == Get(f, c)
  {
    AllColumnsComplete(c);
  }

  /** Reading a form's values and rebuilding the form gives the form back. */
  lemma ValuesRoundTrip(f: Form)
    ensures FromValues(ToValues(f)) == f
  {
    ToValuesColumn(f, Id);
    RoundTripDescribing(f);
    RoundTripPublishing(f);
    RoundTripLocating(f);
    RoundTripSending(f);
  }

  /** The round trip keeps the naming columns (display name, description, form id, version). */
  lemma RoundTripDescribing(f: Form)
    ensures FromValues(ToValues(f)).displayName == f.displayName
    ensures FromValues(ToValues(f)).description == f.description
    ensures FromValues(ToValues(f)).jrFormId == f.jrFormId
    ensures FromValues(ToValues(f)).jrVersion == f.jrVersion
  {
    ToValuesColumn(f, DisplayName);
    ToValuesColumn(f, Description);
    ToValuesColumn(f, JrFormId);
    ToValuesColumn(f, JrVersion);
  }

  /** The round trip keeps the submission and integrity columns (submission URI, key, hash, date). */
  lemma RoundTripPublishing(f: Form)
    ensures FromValues(ToValues(f)).submissionUri == f.submissionUri
    ensures FromValues(ToValues(f)).base64RsaPublicKey == f.base64RsaPublicKey
    ensures FromValues(ToValues(f)).md5Hash == f.md5Hash
    ensures FromValues(ToValues(f)).date == f.date
  {
    ToValuesColumn(f, SubmissionUri);
    ToValuesColumn(f, Base64RsaPublicKey);
    ToValuesColumn(f, Md5Hash);
    ToValuesColumn(f, Date);
  }

  /** The round trip keeps the file and language columns (media, form file, cache, language). */
  lemma RoundTripLocating(f: Form)
    ensures FromValues(ToValues(f)).formMediaPath == f.formMediaPath
    ensures FromValues(ToValues(f)).formFilePath == f.formFilePath
    ensures FromValues(ToValues(f)).jrCacheFilePath == f.jrCacheFilePath
    ensures FromValues(ToValues(f)).language == f.language
  {
    ToValuesColumn(f, FormMediaPath);
    ToValuesColumn(f, FormFilePath);
    ToValuesColumn(f, JrCacheFilePath);
    ToValuesColumn(f, Language);
  }

  /** The round trip keeps the delivery and deletion columns (auto-delete, auto-send, geometry, deleted date). */
  lemma RoundTripSending(f: Form)
    ensures FromValues(ToValues(f)).autoDelete == f.autoDelete
    ensures FromValues(ToValues(f)).autoSend == f.autoSend
    ensures FromValues(ToValues(f)).geometryXpath == f.geometryXpath
    ensures FromValues(ToValues(f)).deletedDate == f.deletedDate
  {
    ToValuesColumn(f, AutoDelete);
    ToValuesColumn(f, AutoSend);
    ToValuesColumn(f, GeometryXpath);
    ToValuesColumn(f, DeletedDate);
  }

  /** The caller's value for column `c` if it names one, else the current value. */
  function Overlay(values: ContentValues, c: Column, current: Value): Value {
    if c in values then values[c] else current
  }

  /**
   * The update step, column by column: a column the caller names takes the
   * caller's value, every other column keeps the existing one.
   */
  function Merge(existing: Form, values: ContentValues): Form {
    Form(
      if Id in values then (if values[Id].Integer? then Some(values[Id].n) else None) else existing.id,
      Overlay(values, DisplayName, existing.displayName),
      Overlay(values, Description, existing.description),
      Overlay(values, JrFormId, existing.jrFormId),
      Overlay(values, JrVersion, existing.jrVersion),
      Overlay(values, SubmissionUri, existing.submissionUri),
      Overlay(values, Base64RsaPublicKey, existing.base64RsaPublicKey),
      Overlay(values, Md5Hash, existing.md5Hash),
      Overlay(values, Date, existing.date),
      Overlay(values, FormMediaPath, existing.formMediaPath),
      Overlay(values, FormFilePath, existing.formFilePath),
      Overlay(values, JrCacheFilePath, existing.jrCacheFilePath),
      Overlay(values, Language, existing.language),
      Overlay(values, AutoDelete, existing.autoDelete),
      Overlay(values, AutoSend, existing.autoSend),
      Overlay(values, GeometryXpath, existing.geometryXpath),
      Overlay(values, DeletedDate, existing.deletedDate))
  }

  /** Column `c` of the bag laid over a form's values (ContentValues.putAll). */
  lemma PutAllColumn(existing: Form, values: ContentValues, c: Column)
    ensures Lookup(ToValues(existing) + values, c) == Overlay(values, c, Get(existing, c))
  {
    AllColumnsComplete(c);
  }

  /**
   * Merge is what update does: read the existing row's values, lay the
   * caller's values over them (ContentValues.putAll), and rebuild the form.
   */
  lemma MergeIsPutAll(existing: Form, values: ContentValues)
    ensures Merge(existing, values) == FromValues(ToValues(existing) + values)
  {
    PutAllColumn(existing, values, Id);
    PutAllDescribing(existing, values);
    PutAllPublishing(existing, values);
    PutAllLocating(existing, values);
    PutAllSending(existing, values);
  }

  /** Merge agrees with putAll on the naming columns (display name, description, form id, version). */
  lemma PutAllDescribing(existing: Form, values: ContentValues)
    ensures Merge(existing, values).displayName == FromValues(ToValues(existing) + values).displayName
    ensures Merge(existing, values).description == FromValues(ToValues(existing) + values).description
    ensures Merge(existing, values).jrFormId == FromValues(ToValues(existing) + values).jrFormId
    ensures Merge(existing, values).jrVersion == FromValues(ToValues(existing) + values).jrVersion
  {
    PutAllColumn(existing, values, DisplayName);
    PutAllColumn(existing, values, Description);
    PutAllColumn(existing, values, JrFormId);
    PutAllColumn(existing, values, JrVersion);
  }

  /** Merge agrees with putAll on the submission and integrity columns (submission URI, key, hash, date). */
  lemma PutAllPublishing(existing: Form, values: ContentValues)
    ensures Merge(existing, values).submissionUri == FromValues(ToValues(existing) + values).submissionUri
    ensures Merge(existing, values).base64RsaPublicKey == FromValues(ToValues(existing) + values).base64RsaPublicKey
    ensures Merge(existing, values).md5Hash == FromValues(ToValues(existing) + values).md5Hash
    ensures Merge(existing, values).date == FromValues(ToValues(existing) + values).date
  {
    PutAllColumn(existing, values, SubmissionUri);
    PutAllColumn(existing, values, Base64RsaPublicKey);
    PutAllColumn(existing, values, Md5Hash);
    PutAllColumn(existing, values, Date);
  }

  /** Merge agrees with putAll on the file and language columns (media, form file, cache, language). */
  lemma PutAllLocating(existing: Form, values: ContentValues)
    ensures Merge(existing, values).formMediaPath == FromValues(ToValues(existing) + values).formMediaPath
    ensures Merge(existing, values).formFilePath == FromValues(ToValues(existing) + values).formFilePath
    ensures Merge(existing, values).jrCacheFilePath == FromValues(ToValues(existing) + values).jrCacheFilePath
    ensures Merge(existing, values).language == FromValues(ToValues(existing) + values).language
  {
    PutAllColumn(existing, values, FormMediaPath);
    PutAllColumn(existing, values, FormFilePath);
    PutAllColumn(existing, values, JrCacheFilePath);
    PutAllColumn(existing, values, Language);
  }

  /** Merge agrees with putAll on the delivery and deletion columns (auto-delete, auto-send, geometry, deleted date). */
  lemma PutAllSending(existing: Form, values: ContentValues)
    ensures Merge(existing, values).autoDelete == FromValues(ToValues(existing) + values).autoDelete
    ensures Merge(existing, values).autoSend == FromValues(ToValues(existing) + values).autoSend
    ensures Merge(existing, values).geometryXpath == FromValues(ToValues(existing) + values).geometryXpath
    ensures Merge(existing, values).deletedDate == FromValues(ToValues(existing) + values).deletedDate
  {
    PutAllColumn(existing, values, AutoDelete);
    PutAllColumn(existing, values, AutoSend);
    PutAllColumn(existing, values, GeometryXpath);
    PutAllColumn(existing, values, DeletedDate);
  }

  /** Column `c` of a merged form, other than _ID. */
  lemma GetMerge(existing: Form, values: ContentValues, c: Column)
    requires c != Id
    ensures Get(Merge(existing, values), c) == Overlay(values, c, Get(existing, c))
  {
    match c {
      case DisplayName =>
      case Description =>
      case JrFormId =>
      case JrVersion =>
      case SubmissionUri =>
      case Base64RsaPublicKey =>
      case Md5Hash =>
      case Date =>
      case FormMediaPath =>
      case FormFilePath =>
      case JrCacheFilePath =>
      case Language =>
      case AutoDelete =>
      case AutoSend =>
      case GeometryXpath =>
      case DeletedDate =>
    }
  }

  /**
   * Update merges and never blindly overwrites: a column the caller names
   * takes the caller's value, every other column keeps its prior value.
   */
  lemma MergeKeepsAbsentColumns(existing: Form, values: ContentValues)
    ensures forall c :: c != Id && c in values ==> Get(Merge(existing, values), c) == values[c]
    ensures forall c :: c != Id && c !in values ==> Get(Merge(existing, values), c) == Get(existing, c)
  {
    forall c | c != Id
      ensures Get(Merge(existing, values), c) == Overlay(values, c, Get(existing, c))
    {
      GetMerge(existing, values, c);
    }
  }

  /** Unless the caller sets _ID, the merged form keeps the existing id. */
  lemma MergeKeepsId(existing: Form, values: ContentValues)
    requires Id !in values
    ensures Merge(existing, values).id == existing.id
  {
  }

  /** Stamping a form with the id it already has changes nothing. */
  lemma WithOwnId(f: Form, k: int)
    requires f.id == Some(k)
    ensures f.(id := Some(k)) == f
  {
  }

  /** Merging nothing leaves the form unchanged. */
  lemma MergeEmpty(existing: Form)
    ensures Merge(existing, map[]) == existing
  {
  }

  /** Applying the same update twice has the effect of applying it once. */
  lemma MergeIdempotent(existing: Form, values: ContentValues)
    ensures Merge(Merge(existing, values), values) == Merge(existing, values)
  {
  }
}

=== FILE: newest_view.dfy ===
/**
 * The grouped scan behind the newest-form-per-form-id address:
 * `GROUP BY <column>` with MAX(date) in the projection. SQLite returns one
 * row per distinct group value, and the bare columns of that row come from
 * a row whose date is the group's maximum. Which row wins a tie is not
 * specified; this definition keeps the first one in scan order.
 */
module NewestView {
  import opened SqlValues
  import opened Forms
  import Sequences

  /** Some row of `view` belongs to the group `key`. */
  predicate HasGroup(view: seq<Form>, g: Column, key: Value) {
    exists i :: 0 <= i < |view| && Get(view[i], g) == key
  }

  /** Every returned row is one of the scanned rows. */
  predicate FromScan(rows: seq<Form>, view: seq<Form>) {
    forall i :: 0 <= i < |view| ==> view[i] in rows
  }

  /** No group is returned twice. */
  predicate DistinctGroups(view: seq<Form>, g: Column) {
    forall i, j :: 0 <= i < j < |view| ==> Get(view[i], g) != Get(view[j], g)
  }

  /** Every group of the scan is returned. */
  predicate CoversGroups(rows: seq<Form>, view: seq<Form>, g: Column) {
    forall r :: r in rows ==> HasGroup(view, g, Get(r, g))
  }

  /** Each returned row carries its group's maximum date. */
  predicate CarriesMaxDate(rows: seq<Form>, view: seq<Form>, g: Column) {
    forall i, r :: 0 <= i < |view| && r in rows && Get(r, g) == Get(view[i], g) ==>
      ValueLe(r.date, view[i].date)
  }

  /** `view` is a correct answer to the grouped query over `rows`. */
  predicate IsNewestView(rows: seq<Form>, view: seq<Form>, g: Column) {
    && FromScan(rows, view)
    && DistinctGroups(view, g)
    && CoversGroups(rows, view, g)
    && CarriesMaxDate(rows, view, g)
  }

  /** Index of the row of group `key` in `view`, or -1. */
  function FindGroup(view: seq<Form>, g: Column, key: Value): (i: int)
    ensures -1 <= i < |view|
    ensures i >= 0 ==> Get(view[i], g) == key
    ensures i == -1 <==> !HasGroup(view, g, key)
    decreases |view|
  {
    if |view| == 0 then -1
    else if Get(view[|view| - 1], g) == key then |view| - 1
    else FindGroup(view[..|view| - 1], g, key)
  }

  /** Fold one more scanned row into the grouped result. */
  function Absorb(view: seq<Form>, r: Form, g: Column): seq<Form> {
    var i := FindGroup(view, g, Get(r, g));
    if i == -1 then view + [r]
    else if ValueLt(view[i].date, r.date) then view[i := r]
    else view
  }

  /** Folding `r` in keeps every group of the scan represented. */
  lemma AbsorbKeepsGroups(rows: seq<Form>, view: seq<Form>, r: Form, g: Column)
    requires forall x :: x in rows ==> HasGroup(view, g, Get(x, g))
    ensures forall x :: x in rows + [r] ==> HasGroup(Absorb(view, r, g), g, Get(x, g))
  {
    var i := FindGroup(view, g, Get(r, g));
    var view' := Absorb(view, r, g);
    forall x | x in rows + [r]
      ensures HasGroup(view', g, Get(x, g))
    {
      if x in rows {
        var j :| 0 <= j < |view| && Get(view[j], g) == Get(x, g);
        assert Get(view'[j], g) == Get(x, g);
      } else if i == -1 {
        assert Get(view'[|view|], g) == Get(x, g);
      } else {
        assert Get(view'[i], g) == Get(x, g);
      }
    }
  }

  /** A row of a group not seen before starts a new group of its own. */
  lemma AbsorbNewGroup(rows: seq<Form>, view: seq<Form>, r: Form, g: Column)
    requires IsNewestView(rows, view, g)
    requires FindGroup(view, g, Get(r, g)) == -1
    ensures IsNewestView(rows + [r], view + [r], g)
  {
    AbsorbKeepsGroups(rows, view, r, g);
    NewGroupIsDistinct(rows, view, r, g);
    NewGroupKeepsMaximum(rows, view, r, g);
  }

  lemma NewGroupIsDistinct(rows: seq<Form>, view: seq<Form>, r: Form, g: Column)
    requires FromScan(rows, view) && DistinctGroups(view, g)
    requires FindGroup(view, g, Get(r, g)) == -1
    ensures FromScan(rows + [r], view + [r])
    ensures DistinctGroups(view + [r], g)
  {
    var view' := view + [r];
    forall i, j | 0 <= i < j < |view'|
      ensures Get(view'[i], g) != Get(view'[j], g)
    {
      if j == |view| {
        assert view'[i] == view[i];
      }
    }
  }

  lemma NewGroupKeepsMaximum(rows: seq<Form>, view: seq<Form>, r: Form, g: Column)
    requires CoversGroups(rows, view, g) && CarriesMaxDate(rows, view, g)
    requires FindGroup(view, g, Get(r, g)) == -1
    ensures CarriesMaxDate(rows + [r], view + [r], g)
  {
    var rows' := rows + [r];
    var view' := view + [r];
    ValueLeReflexive(r.date);
    forall x | x in rows
      ensures Get(x, g) != Get(r, g)
    {
      assert HasGroup(view, g, Get(x, g));
    }
    forall j, x | 0 <= j < |view'| && x in rows' && Get(x, g) == Get(view'[j], g)
      ensures ValueLe(x.date, view'[j].date)
    {
      if j < |view| {
        assert view'[j] == view[j];
      }
    }
  }

  /** A row that beats its group's date replaces the group's row. */
  lemma AbsorbReplace(rows: seq<Form>, view: seq<Form>, r: Form, g: Column, i: int)
    requires IsNewestView(rows, view, g)
    requires 0 <= i < |view| && Get(view[i], g) == Get(r, g)
    requires ValueLt(view[i].date, r.date)
    ensures IsNewestView(rows + [r], view[i := r], g)
  {
    ReplaceKeepsShape(rows, view, r, g, i, view[i := r]);
    ReplaceKeepsMaximum(rows, view, r, g, i, view[i := r]);
  }

  lemma ReplaceKeepsShape(rows: seq<Form>, view: seq<Form>, r: Form, g: Column, i: int, view': seq<Form>)
    requires IsNewestView(rows, view, g)
    requires 0 <= i < |view| && Get(view[i], g) == Get(r, g)
    requires view' == view[i := r]
    ensures FromScan(rows + [r], view')
    ensures DistinctGroups(view', g)
    ensures CoversGroups(rows + [r], view', g)
  {
    var rows' := rows + [r];
    forall j | 0 <= j < |view'|
      ensures view'[j] in rows'
      ensures Get(view'[j], g) == Get(view[j], g)
    {
      if j != i {
        assert view'[j] == view[j] && view[j] in rows;
      }
    }
    forall x | x in rows'
      ensures HasGroup(view', g, Get(x, g))
    {
      if x in rows {
        var j :| 0 <= j < |view| && Get(view[j], g) == Get(x, g);
        assert Get(view'[j], g) == Get(x, g);
      } else {
        assert Get(view'[i], g) == Get(x, g);
      }
    }
  }

  lemma ReplaceKeepsMaximum(rows: seq<Form>, view: seq<Form>, r: Form, g: Column, i: int, view': seq<Form>)
    requires IsNewestView(rows, view, g)
    requires 0 <= i < |view| && Get(view[i], g) == Get(r, g)
    requires ValueLt(view[i].date, r.date)
    requires view' == view[i := r]
    ensures CarriesMaxDate(rows + [r], view', g)
  {
    var rows' := rows + [r];
    ValueLeTotal(view[i].date, r.date);
    ValueLeReflexive(r.date);
    forall j | 0 <= j < |view| && j != i
      ensures Get(view[j], g) != Get(r, g)
    {
      if j < i {
        assert Get(view[j], g) != Get(view[i], g);
      } else {
        assert Get(view[i], g) != Get(view[j], g);
      }
    }
    forall j, x | 0 <= j < |view'| && x in rows' && Get(x, g) == Get(view'[j], g)
      ensures ValueLe(x.date, view'[j].date)
    {
      if j == i {
        if x in rows {
          ValueLeTransitive(x.date, view[i].date, r.date);
        }
      } else {
        assert view'[j] == view[j];
      }
    }
  }

  /** A row that does not beat its group's date leaves the result alone. */
  lemma AbsorbKeep(rows: seq<Form>, view: seq<Form>, r: Form, g: Column, i: int)
    requires IsNewestView(rows, view, g)
    requires 0 <= i < |view| && Get(view[i], g) == Get(r, g)
    requires !ValueLt(view[i].date, r.date)
    ensures IsNewestView(rows + [r], view, g)
  {
    var rows' := rows + [r];
    forall x | x in rows'
      ensures HasGroup(view, g, Get(x, g))
    {
      if x !in rows {
        assert Get(view[i], g) == Get(x, g);
      }
    }
    forall j, x | 0 <= j < |view| && x in rows' && Get(x, g) == Get(view[j], g)
      ensures ValueLe(x.date, view[j].date)
    {
      if x !in rows {
        assert j == i;
      }
    }
  }

  lemma AbsorbPreserves(rows: seq<Form>, view: seq<Form>, r: Form, g: Column)
    requires IsNewestView(rows, view, g)
    ensures IsNewestView(rows + [r], Absorb(view, r, g), g)
  {
    var i := FindGroup(view, g, Get(r, g));
    if i == -1 {
      AbsorbNewGroup(rows, view, r, g);
    } else if ValueLt(view[i].date, r.date) {
      AbsorbReplace(rows, view, r, g, i);
    } else {
      AbsorbKeep(rows, view, r, g, i);
    }
  }

  /** The grouped result of a scan, built row by row in scan order. */
  function NewestPerGroup(rows: seq<Form>, g: Column): (view: seq<Form>)
    ensures IsNewestView(rows, view, g)
    decreases |rows|
  {
    if |rows| == 0 then []
    else
      var prefix := rows[..|rows| - 1];
      var last := rows[|rows| - 1];
      assert rows == prefix + [last];
      AbsorbPreserves(prefix, NewestPerGroup(prefix, g), last, g);
      Absorb(NewestPerGroup(prefix, g), last, g)
  }

  /** One row per distinct group: the result is never longer than the scan. */
  lemma {:induction false} NewestPerGroupNoLonger(rows: seq<Form>, g: Column)
    ensures |NewestPerGroup(rows, g)| <= |rows|
    decreases |rows|
  {
    if |rows| > 0 {
      NewestPerGroupNoLonger(rows[..|rows| - 1], g);
    }
  }

  /** Two views that both answer the grouped query agree on their groups. */
  lemma NewestViewGroupsDetermined(rows: seq<Form>, v1: seq<Form>, v2: seq<Form>, g: Column, key: Value)
    requires IsNewestView(rows, v1, g) && IsNewestView(rows, v2, g)
    ensures HasGroup(v1, g, key) <==> HasGroup(v2, g, key)
  {
    if HasGroup(v1, g, key) {
      var i :| 0 <= i < |v1| && Get(v1[i], g) == key;
      assert v1[i] in rows;
    }
    if HasGroup(v2, g, key) {
      var i :| 0 <= i < |v2| && Get(v2[i], g) == key;
      assert v2[i] in rows;
    }
  }

  /** The group values of the view's rows, in order. */
  function GroupValues(view: seq<Form>, g: Column): (keys: seq<Value>)
    ensures |keys| == |view|
    ensures forall i :: 0 <= i < |view| ==> keys[i] == Get(view[i], g)
  {
    seq(|view|, i requires 0 <= i < |view| => Get(view[i], g))
  }

  /**
   * Two downloads of the same form id: the view holds only the one with
   * the later date.
   */
  lemma LaterVersionWins(a: Form, b: Form, g: Column, view: seq<Form>)
    requires Get(a, g) == Get(b, g)
    requires ValueLt(a.date, b.date)
    requires IsNewestView([a, b], view, g)
    ensures view == [b]
  {
    assert a in [a, b] && b in [a, b];
    assert HasGroup(view, g, Get(a, g));
    var keys := GroupValues(view, g);
    forall i | 0 <= i < |keys|
      ensures keys[i] == Get(a, g)
    {
      assert view[i] in [a, b];
    }
    Sequences.AllEqualNoDuplicates(keys, Get(a, g));
    assert |view| == 1;
    assert view[0] in [a, b];
    assert ValueLe(b.date, view[0].date);
    assert view[0] == b;
  }

  /** A view with distinct groups has no repeated row. */
  lemma DistinctRows(view: seq<Form>, g: Column)
    requires DistinctGroups(view, g)
    ensures Sequences.NoDuplicates(view)
  {
  }

  /**
   * The grouped query does not depend on the order of its rows: any
   * permutation of a correct view is a correct view, so an ORDER BY
   * applied after the grouping keeps it correct.
   */
  lemma PermutedViewIsNewest(rows: seq<Form>, view: seq<Form>, view': seq<Form>, g: Column)
    requires IsNewestView(rows, view, g)
    requires multiset(view') == multiset(view)
    ensures IsNewestView(rows, view', g)
  {
    forall x
      ensures x in view' <==> x in view
    {
      assert x in view' <==> x in multiset(view');
      assert x in view <==> x in multiset(view);
    }
    PermutedKeepsGroups(rows, view, view', g);
    PermutedKeepsDistinct(view, view', g);
  }

  lemma PermutedKeepsGroups(rows: seq<Form>, view: seq<Form>, view': seq<Form>, g: Column)
    requires IsNewestView(rows, view, g)
    requires forall x :: x in view' <==> x in view
    ensures FromScan(rows, view')
    ensures CoversGroups(rows, view', g)
    ensures CarriesMaxDate(rows, view', g)
  {
    forall i | 0 <= i < |view'|
      ensures view'[i] in rows
    {
      assert view'[i] in view';
    }
    forall r | r in rows
      ensures HasGroup(view', g, Get(r, g))
    {
      var p :| 0 <= p < |view| && Get(view[p], g) == Get(r, g);
      assert view[p] in view;
      var q :| 0 <= q < |view'| && view'[q] == view[p];
    }
    forall i, r | 0 <= i < |view'| && r in rows && Get(r, g) == Get(view'[i], g)
      ensures ValueLe(r.date, view'[i].date)
    {
      assert view'[i] in view';
      var p :| 0 <= p < |view| && view[p] == view'[i];
    }
  }

  lemma PermutedKeepsDistinct(view: seq<Form>, view': seq<Form>, g: Column)
    requires DistinctGroups(view, g)
    requires multiset(view') == multiset(view)
    ensures DistinctGroups(view', g)
  {
    DistinctRows(view, g);
    forall i, j | 0 <= i < j < |view'|
      ensures Get(view'[i], g) != Get(view'[j], g)
    {
      assert view'[i] != view'[j] by {
        if view'[i] == view'[j] {
          Sequences.RepeatCount(view', i, j);
          Sequences.NoDuplicatesCount(view, view'[i]);
          assert false;
        }
      }
      assert view'[i] in multiset(view) && view'[j] in multiset(view);
      var p :| 0 <= p < |view| && view[p] == view'[i];
      var q :| 0 <= q < |view| && view[q] == view'[j];
      assert p != q;
    }
  }
}

=== FILE: ordering.dfy ===
/**
 * The ORDER BY a caller may pass to a query, reduced to one column and a
 * direction, and the insertion sort that applies it. Values compare as
 * SQLite compares them (NULL < INTEGER < TEXT). Rows whose keys tie may
 * come back in any order, so what is promised of a sorted result is that
 * it is a permutation of its input and ordered by the key.
 */
module Ordering {
  import opened SqlValues
  import opened Forms

  /** `ORDER BY column [ASC|DESC]`. */
  datatype SortOrder = SortOrder(column: Column, descending: bool)

  /** `a` may come before `b` under the order. */
  predicate InOrder(o: SortOrder, a: Form, b: Form) {
    if o.descending then ValueLe(Get(b, o.column), Get(a, o.column))
    else ValueLe(Get(a, o.column), Get(b, o.column))
  }

  /** Every row may come before every later row. */
  predicate SortedBy(o: SortOrder, s: seq<Form>) {
    forall i, j :: 0 <= i < j < |s| ==> InOrder(o, s[i], s[j])
  }

  lemma InOrderTotal(o: SortOrder, a: Form, b: Form)
    ensures InOrder(o, a, b) || InOrder(o, b, a)
  {
    ValueLeTotal(Get(a, o.column), Get(b, o.column));
  }

  lemma InOrderTransitive(o: SortOrder, a: Form, b: Form, c: Form)
    requires InOrder(o, a, b) && InOrder(o, b, c)
    ensures InOrder(o, a, c)
  {
    if o.descending {
      ValueLeTransitive(Get(c, o.column), Get(b, o.column), Get(a, o.column));
    } else {
      ValueLeTransitive(Get(a, o.column), Get(b, o.column), Get(c, o.column));
    }
  }

  /** A row that may precede every row of a sorted sequence can head it. */
  lemma PrependSorted(o: SortOrder, h: Form, s: seq<Form>)
    requires SortedBy(o, s)
    requires forall y :: y in s ==> InOrder(o, h, y)
    ensures SortedBy(o, [h] + s)
  {
    var r := [h] + s;
    forall i, j | 0 <= i < j < |r|
      ensures InOrder(o, r[i], r[j])
    {
      assert r[j] == s[j - 1];
      if i > 0 {
        assert r[i] == s[i - 1];
      }
    }
  }

  /** Insert one row into a sorted sequence, before the first row it may precede. */
  function InsertSorted(o: SortOrder, x: Form, s: seq<Form>): (r: seq<Form>)
    requires SortedBy(o, s)
    ensures multiset(r) == multiset(s) + multiset{x}
    ensures SortedBy(o, r)
    decreases |s|
  {
    if |s| == 0 then [x]
    else if InOrder(o, x, s[0]) then
      assert forall y :: y in s ==> InOrder(o, x, y) by {
        forall y | y in s
          ensures InOrder(o, x, y)
        {
          var k :| 0 <= k < |s| && s[k] == y;
          if k > 0 {
            InOrderTransitive(o, x, s[0], y);
          }
        }
      }
      PrependSorted(o, x, s);
      [x] + s
    else
      var tail := s[1..];
      var rest := InsertSorted(o, x, tail);
      assert s == [s[0]] + tail;
      InOrderTotal(o, x, s[0]);
      assert forall y :: y in rest ==> InOrder(o, s[0], y) by {
        forall y | y in rest
          ensures InOrder(o, s[0], y)
        {
          assert y in multiset(rest);
          if y != x {
            assert y in multiset(tail);
            var k :| 0 <= k < |tail| && tail[k] == y;
            assert s[k + 1] == y;
          }
        }
      }
      PrependSorted(o, s[0], rest);
      [s[0]] + rest
  }

  /** The rows reordered by the sort order. */
  function SortRows(o: SortOrder, s: seq<Form>): (r: seq<Form>)
    ensures multiset(r) == multiset(s)
    ensures SortedBy(o, r)
    decreases |s|
  {
    if |s| == 0 then []
    else
      assert s == [s[0]] + s[1..];
      InsertSorted(o, s[0], SortRows(o, s[1..]))
  }

  /** Two rows, the first of which may not precede the second, sort in reverse. */
  lemma TwoSorted(o: SortOrder, x: Form, y: Form, s: seq<Form>)
    requires SortedBy(o, s) && multiset(s) == multiset{x, y}
    requires !InOrder(o, x, y)
    ensures s == [y, x]
  {
    ValueLeReflexive(Get(x, o.column));
    assert x != y;
    assert |s| == |multiset(s)| == 2;
    assert x in multiset(s) && y in multiset(s);
    assert x == s[0] || x == s[1];
    assert InOrder(o, s[0], s[1]);
    if s[0] != y {
      assert false;
    }
  }
}

=== FILE: properties.dfy ===
/**
 * Properties that relate several provider calls, or a call and the table
 * it leaves behind.
 */
module FormsProviderProperties {
  import opened Results
  import opened SqlValues
  import opened Forms
  import opened Uris
  import opened Repository
  import opened FormsProvider
  import opened Ordering
  import NewestView
  import Sequences

  /**
   * An update through the collection URI that does not set _ID leaves
   * every matched row merged with the values and every other row alone;
   * no row appears or disappears.
   */
  lemma UpdateCollectionMergesMatchedRows(st: Store, values: ContentValues, selection: Selection)
    requires Id !in values
    ensures Update(st, ContentUri, values, selection).Ok?
    ensures Update(st, ContentUri, values, selection).value.store.repository.rows
         == st.repository.rows + MergedRows(st.repository.rows, ScanIds(st.repository.rows, selection), values)
    ensures Update(st, ContentUri, values, selection).value.store.repository.rows.Keys
         == st.repository.rows.Keys
  {
    var t := st.repository.rows;
    var ids := ScanIds(t, selection);
    var r := Update(st, ContentUri, values, selection);
    assert r.value.store.repository.rows == t + MergedRows(t, ids, values);
  }

  /** An increasing sequence holds each of its elements exactly once. */
  lemma {:induction false} IncreasingOnce(s: seq<int>, k: int)
    requires Increasing(s)
    ensures multiset(s)[k] == if k in s then 1 else 0
  {
    if |s| > 0 {
      IncreasingOnce(s[1..], k);
      assert s == [s[0]] + s[1..];
      assert s[0] !in s[1..];
    }
  }

  /**
   * Delete through the collection URI runs the form deleter exactly once
   * for each row the selection matched, and for no other id.
   */
  lemma DeleteCascadesOncePerMatch(st: Store, selection: Selection, k: int)
    ensures Delete(st, ContentUri, selection).Ok?
    ensures
      var st' := Delete(st, ContentUri, selection).value.store;
      && st'.cascadeLog[..|st.cascadeLog|] == st.cascadeLog
      && multiset(st'.cascadeLog[|st.cascadeLog|..])[k]
         == if k in st.repository.rows && Matches(selection, Row(st.repository.rows, k)) then 1 else 0
  {
    var ids := ScanIds(st.repository.rows, selection);
    var st' := Delete(st, ContentUri, selection).value.store;
    assert st'.cascadeLog[|st.cascadeLog|..] == ids;
    IncreasingOnce(ids, k);
  }

  /**
   * A form inserted without an explicit _ID can be read back through the
   * URI insert returned, and that query yields exactly the inserted form.
   */
  lemma InsertThenQueryById(st: Store, values: ContentValues,
                            projection: Option<set<Projected>>, selection: Selection, sortOrder: Option<SortOrder>)
    requires FormsProvider.Valid(st)
    requires !(Id in values && values[Id].Integer?)
    ensures Insert(st, ContentUri, values).Ok?
    ensures
      var r := Insert(st, ContentUri, values).value;
      var id := st.repository.nextId;
      && Classify(r.value) == Some(FormId(id))
      && Query(r.store, r.value, projection, selection, sortOrder).Ok?
      && Query(r.store, r.value, projection, selection, sortOrder).value.rows
         == [FromValues(values).(id := Some(id))]
  {
    var r := Insert(st, ContentUri, values).value;
    var id := st.repository.nextId;
    ItemUriRoundTrip(id);
  }

  /**
   * Under the id counter assumed in `Repository.Save`, after a form is
   * deleted by id, the next form inserted without an explicit _ID gets a
   * different id.
   */
  lemma DeletedIdNotReused(st: Store, id: int, values: ContentValues)
    requires FormsProvider.Valid(st) && id >= 0 && id in st.repository.rows
    requires !(Id in values && values[Id].Integer?)
    ensures Delete(st, ItemUri(id), Everything).Ok?
    ensures
      var st1 := Delete(st, ItemUri(id), Everything).value.store;
      Insert(st1, ContentUri, values).Ok? && InsertedId(st1, values) != id
  {
    ItemUriRoundTrip(id);
  }

  /** A by-id query answers the same whatever projection, selection and sort the caller passes. */
  lemma QueryByIdIgnoresCallerArguments(st: Store, id: int,
                                        p1: Option<set<Projected>>, s1: Selection, o1: Option<SortOrder>,
                                        p2: Option<set<Projected>>, s2: Selection, o2: Option<SortOrder>)
    requires id >= 0
    ensures Query(st, ItemUri(id), p1, s1, o1) == Query(st, ItemUri(id), p2, s2, o2)
  {
    ItemUriRoundTrip(id);
  }

  /** The only increasing sequence of the ids {a, b}, a < b, is [a, b]. */
  lemma TwoIdsSorted(s: seq<int>, a: int, b: int)
    requires a < b && Increasing(s)
    requires forall k :: k in s <==> k == a || k == b
    ensures s == [a, b]
  {
    Sequences.NoDuplicatesCardinality(s);
    assert (set x | x in s) == {a, b};
    assert a in s && b in s;
    assert |s| == 2;
    assert s[0] in s && s[1] in s;
    assert s[0] < s[1];
  }

  /**
   * Two downloads of one form id, the second one later: the collection
   * query returns both, the newest-forms query only the later one.
   */
  lemma NewestScenario(a: Form, b: Form)
    requires a.id == Some(1) && b.id == Some(2)
    requires a.jrFormId == b.jrFormId
    requires ValueLt(a.date, b.date)
    ensures
      var st := Store(FormsRepository(map[1 := a, 2 := b], 3), [], []);
      && Query(st, ContentUri, None, Everything, None).value.rows == [a, b]
      && Query(st, NewestFormsUri, None, Everything, None).value.rows == [b]
  {
    var t := map[1 := a, 2 := b];
    var st := Store(FormsRepository(t, 3), [], []);
    ScenarioScan(a, b);
    var view := Query(st, NewestFormsUri, None, Everything, None).value.rows;
    NewestView.LaterVersionWins(a, b, JrFormId, view);
  }

  /** The ascending-id scan of the two stored rows. */
  lemma ScenarioScan(a: Form, b: Form)
    requires a.id == Some(1) && b.id == Some(2)
    ensures Scan(map[1 := a, 2 := b], Everything) == [a, b]
  {
    var t := map[1 := a, 2 := b];
    TwoIdsSorted(ScanIds(t, Everything), 1, 2);
    WithOwnId(a, 1);
    WithOwnId(b, 2);
    assert Row(t, 1) == a && Row(t, 2) == b;
  }

  /**
   * The same two downloads queried through the collection with
   * `ORDER BY date DESC` come back later first.
   */
  lemma SortedScenario(a: Form, b: Form)
    requires a.id == Some(1) && b.id == Some(2)
    requires ValueLt(a.date, b.date)
    ensures
      var st := Store(FormsRepository(map[1 := a, 2 := b], 3), [], []);
      Query(st, ContentUri, None, Everything, Some(SortOrder(Date, true))).value.rows == [b, a]
  {
    var t := map[1 := a, 2 := b];
    var st := Store(FormsRepository(t, 3), [], []);
    var o := SortOrder(Date, true);
    assert Classify(ContentUri) == Some(Forms);
    var r := Query(st, ContentUri, None, Everything, Some(o));
    var rows := r.value.rows;
    ScenarioScan(a, b);
    assert multiset(rows) == multiset([a, b]) == multiset{a, b};
    assert SortedBy(o, rows);
    TwoSorted(o, a, b, rows);
  }

  /**
   * An update by id whose values set _ID to something other than an
   * integer rebuilds a form without an id, since this model converts no
   * value types: it is saved as a new row under a fresh id and the
   * original row stays as it was.
   */
  lemma UpdateByIdWithoutIntegerIdCopies(st: Store, k: int, values: ContentValues)
    requires FormsProvider.Valid(st) && k >= 0 && k in st.repository.rows
    requires Id in values && !values[Id].Integer?
    ensures Update(st, ItemUri(k), values, Everything).Ok?
    ensures
      var rows := st.repository.rows;
      var rows' := Update(st, ItemUri(k), values, Everything).value.store.repository.rows;
      var newId := st.repository.nextId;
      && newId !in rows
      && rows' == rows[newId := Merge(Row(rows, k), values).(id := Some(newId))]
  {
    ItemUriRoundTrip(k);
  }
}

=== FILE: provider.dfy ===
/**
 * The forms content provider: URI-addressed query, type lookup, insert,
 * field-merge update and cascading delete over the forms repository, with
 * change notifications recorded in an append-only log and the form deleter
 * recorded in a cascade log.
 */
module FormsProvider {
  import opened Results
  import opened SqlValues
  import opened Forms
  import opened Uris
  import opened Repository
  import opened Ordering
  import NewestView

  /**
   * Everything the provider touches: the repository, the ids handed to the
   * form deleter, and the URIs the content resolver was told about.
   */
  datatype Store = Store(
    repository: FormsRepository,
    cascadeLog: seq<int>,
    notifications: seq<Uri>)

  predicate Valid(st: Store) {
    Repository.Valid(st.repository)
  }

  /** The exception a provider call raises. */
  datatype ProviderError = UnknownUri(uri: Uri) | FormNotFound(id: int)

  /** The store after a successful call, and what the call returned. */
  datatype Response<+T> = Response(store: Store, value: T)

  /** A cursor: the scan it came from, its rows, and the URI it watches. */
  datatype Cursor = Cursor(request: ScanRequest, rows: seq<Form>, notificationUri: Uri)

  /** MIME types reported by getType. */
  datatype MimeType = ContentType | ContentItemType

  /** sFormsProjectionMap: every column projected as itself. */
  const FormsProjectionMap: map<Column, Projected> := map c | c in AllColumns :: Col(c)

  /** The projection of the newest-forms query: DATE replaced by MAX(date). */
  function NewestProjection(): (p: set<Projected>)
    ensures MaxDate in p && Col(Date) !in p
    ensures forall c :: c != Date ==> Col(c) in p
    ensures forall x :: x in p ==> x == MaxDate || (x.Col? && x.column != Date)
  {
    var m := FormsProjectionMap[Date := MaxDate];
    assert m[Date] == MaxDate;
    forall c | c != Date
      ensures Col(c) in m.Values
    {
      AllColumnsComplete(c);
      assert m[c] == Col(c);
    }
    forall x | x in m.Values
      ensures x == MaxDate || (x.Col? && x.column != Date)
    {
      var c :| c in m && m[c] == x;
    }
    m.Values
  }

  /** Tell the content resolver that `uri` changed. */
  function Notify(st: Store, uri: Uri): Store {
    st.(notifications := st.notifications + [uri])
  }

  /** FormsProvider.notifyChange(): the collection and the newest-forms view. */
  function NotifyChange(st: Store): (st': Store)
    ensures st'.notifications == st.notifications + [ContentUri, NewestFormsUri]
    ensures st'.repository == st.repository && st'.cascadeLog == st.cascadeLog
  {
    Notify(Notify(st, ContentUri), NewestFormsUri)
  }

  /** FormDeleter.delete(id): the row goes, and the cascade runs once for it. */
  function FormDeleterDelete(st: Store, id: int): (st': Store)
    ensures id !in st'.repository.rows
    ensures forall k :: k in st.repository.rows && k != id ==>
      k in st'.repository.rows && st'.repository.rows[k] == st.repository.rows[k]
    ensures st'.repository.rows.Keys <= st.repository.rows.Keys
    ensures st'.repository.nextId == st.repository.nextId
    ensures st'.cascadeLog == st.cascadeLog + [id]
    ensures st'.notifications == st.notifications
  {
    st.(repository := st.repository.(rows := st.repository.rows - {id}),
        cascadeLog := st.cascadeLog + [id])
  }

  // ---------------------------------------------------------------- query

  /** The scan each route asks the repository for. */
  function QueryRequest(route: Route, projection: Option<set<Projected>>,
                        selection: Selection, sortOrder: Option<SortOrder>): ScanRequest
  {
    match route
    case Forms => ScanRequest(projection, selection, sortOrder, None)
    case FormId(id) => ScanRequest(None, Equals(Id, Integer(id)), None, None)
    case NewestFormsByFormId => ScanRequest(Some(NewestProjection()), selection, sortOrder, Some(JrFormId))
  }

  /**
   * query(): an unknown URI raises; otherwise the cursor holds the rows of
   * the route's scan and watches the URI it was asked for.
   */
  function Query(st: Store, uri: Uri, projection: Option<set<Projected>>,
                 selection: Selection, sortOrder: Option<SortOrder>): (r: Result<Cursor, ProviderError>)
    ensures r.Err? <==> Classify(uri).None?
    ensures r.Err? ==> r.error == UnknownUri(uri)
    ensures r.Ok? ==> r.value.notificationUri == uri
    // the collection passes projection, selection and sort through, ungrouped:
    // the matching rows, reordered by the sort order when there is one
    ensures Classify(uri) == Some(Forms) ==>
      r.Ok? && r.value.request == ScanRequest(projection, selection, sortOrder, None)
      && multiset(r.value.rows) == multiset(Scan(st.repository.rows, selection))
      && (sortOrder.None? ==> r.value.rows == Scan(st.repository.rows, selection))
    // a single form: caller arguments ignored, at most the one row with that id
    ensures Classify(uri).Some? && Classify(uri).value.FormId? ==>
      var id := Classify(uri).value.id;
      r.Ok? && r.value.request == ScanRequest(None, Equals(Id, Integer(id)), None, None)
      && r.value.rows == if id in st.repository.rows then [Row(st.repository.rows, id)] else []
    // newest per form id: MAX(date) projection, grouped by form id
    ensures Classify(uri) == Some(NewestFormsByFormId) ==>
      r.Ok? && r.value.request == ScanRequest(Some(NewestProjection()), selection, sortOrder, Some(JrFormId))
      && NewestView.IsNewestView(Scan(st.repository.rows, selection), r.value.rows, JrFormId)
    // the collection and the newest view come back in the caller's sort order
    ensures r.Ok? && !Classify(uri).value.FormId? && sortOrder.Some? ==>
      SortedBy(sortOrder.value, r.value.rows)
  {
    match Classify(uri)
    case None => Err(UnknownUri(uri))
    case Some(route) =>
      var req := QueryRequest(route, projection, selection, sortOrder);
      if route.FormId? then
        ScanById(st.repository.rows, route.id);
        Ok(Cursor(req, RawQuery(st.repository.rows, req), uri))
      else
        Ok(Cursor(req, RawQuery(st.repository.rows, req), uri))
  }

  /** getType(): the collection and the newest view are directories, one form an item. */
  function GetType(uri: Uri): (r: Result<MimeType, ProviderError>)
    ensures r == Ok(ContentType) <==> uri == ContentUri || uri == NewestFormsUri
    ensures r == Ok(ContentItemType) <==> Match(uri) == FormIdCode
    ensures r.Err? <==> Match(uri) == NoMatch
    ensures r.Err? ==> r.error == UnknownUri(uri)
  {
    match Match(uri)
    case FormsCode => Ok(ContentType)
    case NewestFormsByFormIdCode => Ok(ContentType)
    case FormIdCode => Ok(ContentItemType)
    case NoMatch => Err(UnknownUri(uri))
  }

  // ---------------------------------------------------------------- insert

  /** The id the repository gives the inserted form. */
  function InsertedId(st: Store, values: ContentValues): int {
    Save(st.repository, FromValues(values)).1
  }

  /**
   * insert(): only the collection URI is accepted. The form built from the
   * values is saved once and its item URI returned; nothing is notified.
   */
  function Insert(st: Store, uri: Uri, values: ContentValues): (r: Result<Response<Uri>, ProviderError>)
    ensures r.Err? <==> uri != ContentUri
    ensures r.Err? ==> r.error == UnknownUri(uri)
    ensures r.Ok? ==>
      var id := InsertedId(st, values);
      && r.value.value == ItemUri(id)
      && r.value.store.repository.rows == st.repository.rows[id := FromValues(values).(id := Some(id))]
      && r.value.store.notifications == st.notifications
      && r.value.store.cascadeLog == st.cascadeLog
    ensures r.Ok? && Valid(st) ==> Valid(r.value.store)
    // without an integer _ID in the values, exactly one new row appears
    ensures r.Ok? && Valid(st) && !(Id in values && values[Id].Integer?) ==>
      && InsertedId(st, values) == st.repository.nextId
      && InsertedId(st, values) !in st.repository.rows
      && |r.value.store.repository.rows| == |st.repository.rows| + 1
  {
    if Match(uri) != FormsCode then Err(UnknownUri(uri))
    else
      var (repo', id) := Save(st.repository, FromValues(values));
      Ok(Response(st.(repository := repo'), ItemUri(id)))
  }

  // ---------------------------------------------------------------- update

  /** Save the merge of each scanned row with the values, in scan order. */
  function SaveMerged(repo: FormsRepository, rows: seq<Form>, values: ContentValues): (repo': FormsRepository)
    ensures Repository.Valid(repo) ==> Repository.Valid(repo')
    decreases |rows|
  {
    if |rows| == 0 then repo
    else SaveMerged(Save(repo, Merge(rows[0], values)).0, rows[1..], values)
  }

  /** The merged forms of the listed rows of the snapshot `orig`. */
  function MergedRows(orig: Table, ids: seq<int>, values: ContentValues): map<int, Form>
    requires forall k :: k in ids ==> k in orig
  {
    map k | k in ids :: Merge(Row(orig, k), values)
  }

  lemma MergedRowsCons(orig: Table, ids: seq<int>, values: ContentValues)
    requires forall k :: k in ids ==> k in orig
    requires |ids| > 0
    ensures MergedRows(orig, ids, values)
         == MergedRows(orig, ids[1..], values)[ids[0] := Merge(Row(orig, ids[0]), values)]
  {
    assert forall k :: k in ids <==> k == ids[0] || k in ids[1..];
  }

  lemma MapUpdateUnion<V>(m: map<int, V>, k: int, v: V, rest: map<int, V>)
    requires k !in rest
    ensures m[k := v] + rest == m + rest[k := v]
  {
  }

  /**
   * Saving the merged snapshot rows one by one leaves each listed row
   * merged with the values and every other row as it was.
   */
  lemma {:induction false} SaveMergedSnapshot(repo: FormsRepository, orig: Table, ids: seq<int>, values: ContentValues)
    requires Id !in values
    requires forall k :: k in ids ==> k in orig
    requires Increasing(ids)
    ensures SaveMerged(repo, RowsOf(orig, ids), values).rows == repo.rows + MergedRows(orig, ids, values)
    decreases |ids|
  {
    if |ids| == 0 {
      assert MergedRows(orig, ids, values) == map[];
      assert repo.rows + map[] == repo.rows;
    } else {
      var k0 := ids[0];
      var m0 := Merge(Row(orig, k0), values);
      MergeKeepsId(Row(orig, k0), values);
      WithOwnId(m0, k0);
      var repo1 := Save(repo, m0).0;
      assert repo1.rows == repo.rows[k0 := m0];
      assert RowsOf(orig, ids)[1..] == RowsOf(orig, ids[1..]);
      SaveMergedSnapshot(repo1, orig, ids[1..], values);
      assert k0 !in ids[1..];
      MergedRowsCons(orig, ids, values);
      MapUpdateUnion(repo.rows, k0, m0, MergedRows(orig, ids[1..], values));
    }
  }

  /** Update through the collection URI: merge every matched row. */
  function UpdateCollection(st: Store, uri: Uri, values: ContentValues, selection: Selection): (r: Response<int>)
    ensures r.store.notifications == st.notifications + [uri, NewestFormsUri]
    ensures r.store.cascadeLog == st.cascadeLog
    ensures r.value == |ScanIds(st.repository.rows, selection)|
    ensures Valid(st) ==> Valid(r.store)
    // every matched row is replaced by its merge, every other row is kept
    ensures Id !in values ==>
      r.store.repository.rows
        == st.repository.rows + MergedRows(st.repository.rows, ScanIds(st.repository.rows, selection), values)
  {
    var rows := Scan(st.repository.rows, selection);
    var repo' := SaveMerged(st.repository, rows, values);
    assert Id !in values ==>
      repo'.rows == st.repository.rows + MergedRows(st.repository.rows, ScanIds(st.repository.rows, selection), values)
    by {
      if Id !in values {
        SaveMergedSnapshot(st.repository, st.repository.rows, ScanIds(st.repository.rows, selection), values);
      }
    }
    Response(Store(repo', st.cascadeLog, st.notifications + [uri, NewestFormsUri]), |rows|)
  }

  /** Read the stored row, lay the values over it and save the result. */
  function SaveMergedRow(repo: FormsRepository, id: int, values: ContentValues): (repo': FormsRepository)
    requires id in repo.rows
    ensures Repository.Valid(repo) ==> Repository.Valid(repo')
    ensures Id !in values ==> repo'.rows == repo.rows[id := Merge(Row(repo.rows, id), values)]
  {
    var merged := Merge(Row(repo.rows, id), values);
    var saved := Save(repo, merged);
    assert Id !in values ==> saved.0.rows == repo.rows[id := merged] by {
      if Id !in values {
        MergeKeepsId(Row(repo.rows, id), values);
        WithOwnId(merged, id);
      }
    }
    saved.0
  }

  /** Update through a single-form URI: merge that row, or raise if it is missing. */
  function UpdateById(st: Store, uri: Uri, id: int, values: ContentValues): (r: Result<Response<int>, ProviderError>)
    ensures r.Err? <==> id !in st.repository.rows
    ensures r.Err? ==> r.error == FormNotFound(id)
    ensures r.Ok? ==> r.value.value == 1
    ensures r.Ok? ==> r.value.store.notifications == st.notifications + [uri, NewestFormsUri]
    ensures r.Ok? ==> r.value.store.cascadeLog == st.cascadeLog
    ensures r.Ok? && Id !in values ==>
      r.value.store.repository.rows == st.repository.rows[id := Merge(Row(st.repository.rows, id), values)]
    ensures r.Ok? && Valid(st) ==> Valid(r.value.store)
  {
    if id !in st.repository.rows then Err(FormNotFound(id))
    else
      var repo' := SaveMergedRow(st.repository, id, values);
      Ok(Response(Store(repo', st.cascadeLog, st.notifications + [uri, NewestFormsUri]), 1))
  }

  /**
   * update(): the collection merges every row the selection matches and
   * returns how many it scanned; a single form merges that form and
   * returns 1; the newest view and unknown URIs raise. On success the
   * given URI and the newest-forms URI are notified once each.
   */
  function Update(st: Store, uri: Uri, values: ContentValues, selection: Selection): (r: Result<Response<int>, ProviderError>)
    ensures r.Err? <==>
      Classify(uri).None? || Classify(uri) == Some(NewestFormsByFormId)
      || (Classify(uri).value.FormId? && Classify(uri).value.id !in st.repository.rows)
    ensures r.Err? && Classify(uri).Some? && Classify(uri).value.FormId? ==>
      r.error == FormNotFound(Classify(uri).value.id)
    ensures r.Err? && !(Classify(uri).Some? && Classify(uri).value.FormId?) ==> r.error == UnknownUri(uri)
    ensures r.Ok? ==> r.value.store.notifications == st.notifications + [uri, NewestFormsUri]
    ensures r.Ok? ==> r.value.store.cascadeLog == st.cascadeLog
    ensures r.Ok? && Classify(uri) == Some(Forms) ==>
      var ids := ScanIds(st.repository.rows, selection);
      && r.value.value == |ids|
      && (Id !in values ==>
            r.value.store.repository.rows == st.repository.rows + MergedRows(st.repository.rows, ids, values))
    ensures r.Ok? && Classify(uri).value.FormId? ==>
      var id := Classify(uri).value.id;
      && r.value.value == 1
      && (Id !in values ==>
            r.value.store.repository.rows == st.repository.rows[id := Merge(Row(st.repository.rows, id), values)])
    ensures r.Ok? && Valid(st) ==> Valid(r.value.store)
  {
    match Classify(uri)
    case None => Err(UnknownUri(uri))
    case Some(NewestFormsByFormId) => Err(UnknownUri(uri))
    case Some(Forms) => Ok(UpdateCollection(st, uri, values, selection))
    case Some(FormId(id)) => UpdateById(st, uri, id, values)
  }

  // ---------------------------------------------------------------- delete

  /** Hand each scanned id to the form deleter, in scan order. */
  function DeleteEach(st: Store, ids: seq<int>): (st': Store)
    ensures st'.cascadeLog == st.cascadeLog + ids
    ensures st'.repository.rows == st.repository.rows - (set k | k in ids)
    ensures st'.repository.nextId == st.repository.nextId
    ensures st'.notifications == st.notifications
    decreases |ids|
  {
    if |ids| == 0 then st
    else
      var st' := DeleteEach(FormDeleterDelete(st, ids[0]), ids[1..]);
      assert (set k | k in ids) == {ids[0]} + (set k | k in ids[1..]);
      assert st.cascadeLog + ids == st.cascadeLog + [ids[0]] + ids[1..];
      st'
  }

  /**
   * delete(): the collection hands every id the selection matches to the
   * form deleter and returns the number scanned; a single form is handed
   * over and 1 returned whether or not it existed; the newest view and
   * unknown URIs raise. On success the given URI and the newest-forms URI
   * are notified once each, after all rows.
   */
  function Delete(st: Store, uri: Uri, selection: Selection): (r: Result<Response<int>, ProviderError>)
    ensures r.Err? <==> Classify(uri).None? || Classify(uri) == Some(NewestFormsByFormId)
    ensures r.Err? ==> r.error == UnknownUri(uri)
    ensures r.Ok? ==> r.value.store.notifications == st.notifications + [uri, NewestFormsUri]
    ensures r.Ok? ==> r.value.store.repository.nextId == st.repository.nextId
    ensures r.Ok? && Classify(uri) == Some(Forms) ==>
      var ids := ScanIds(st.repository.rows, selection);
      && r.value.value == |ids|
      && r.value.store.cascadeLog == st.cascadeLog + ids
      && r.value.store.repository.rows == st.repository.rows - (set k | k in ids)
    ensures r.Ok? && Classify(uri).value.FormId? ==>
      var id := Classify(uri).value.id;
      && r.value.value == 1
      && r.value.store.cascadeLog == st.cascadeLog + [id]
      && r.value.store.repository.rows == st.repository.rows - {id}
    ensures r.Ok? && Valid(st) ==> Valid(r.value.store)
  {
    match Classify(uri)
    case None => Err(UnknownUri(uri))
    case Some(NewestFormsByFormId) => Err(UnknownUri(uri))
    case Some(Forms) =>
      var ids := ScanIds(st.repository.rows, selection);
      var st' := DeleteEach(st, ids);
      Ok(Response(st'.(notifications := st.notifications + [uri, NewestFormsUri]), |ids|))
    case Some(FormId(id)) =>
      var st' := FormDeleterDelete(st, id);
      Ok(Response(st'.(notifications := st.notifications + [uri, NewestFormsUri]), 1))
  }
}

=== FILE: repository.dfy ===
/**
 * The forms repository the provider delegates to: a table of rows keyed by
 * id, filtered scans (`rawQuery`) and save-by-identity. SQL selections are
 * a small WHERE language evaluated with SQL's three-valued logic; an
 * ORDER BY of one column and a direction reorders the result after any
 * grouping.
 */
module Repository {
  import opened Results
  import opened SqlValues
  import opened Forms
  import NewestView
  import Sequences
  import opened Ordering

  /** The forms table: row id to stored form. */
  type Table = map<int, Form>

  /** A WHERE clause; `Everything` is the null selection. */
  datatype Selection =
    | Everything
    | Equals(column: Column, value: Value)
    | IsNull(column: Column)
    | Not(operand: Selection)
    | And(left: Selection, right: Selection)
    | Or(left: Selection, right: Selection)

  datatype Truth = True | False | Unknown

  /** SQL three-valued evaluation; a comparison with NULL is Unknown. */
  function Eval(sel: Selection, f: Form): Truth {
    match sel
    case Everything => True
    case Equals(c, v) =>
      if Get(f, c) == Null || v == Null then Unknown
      else if Get(f, c) == v then True else False
    case IsNull(c) => if Get(f, c) == Null then True else False
    case Not(s) =>
      var t := Eval(s, f);
      if t == True then False else if t == False then True else Unknown
    case And(a, b) =>
      var x := Eval(a, f);
      var y := Eval(b, f);
      if x == False || y == False then False
      else if x == True && y == True then True else Unknown
    case Or(a, b) =>
      var x := Eval(a, f);
      var y := Eval(b, f);
      if x == True || y == True then True
      else if x == False && y == False then False else Unknown
  }

  /** A row is returned by a scan only when the WHERE clause is True. */
  predicate Matches(sel: Selection, f: Form) {
    Eval(sel, f) == True
  }

  /** The row stored under `k`, read back with its own id as _ID. */
  function Row(t: Table, k: int): Form
    requires k in t
  {
    t[k].(id := Some(k))
  }

  predicate Increasing(s: seq<int>) {
    forall i, j :: 0 <= i < j < |s| ==> s[i] < s[j]
  }

  lemma {:induction false} MinExists(s: set<int>)
    requires s != {}
    ensures exists m :: m in s && forall x :: x in s ==> m <= x
    decreases |s|
  {
    if forall y :: y !in s {
      assert false;
    }
    var y :| y in s;
    var rest := s - {y};
    if rest == {} {
      forall x | x in s
        ensures y <= x
      {
        assert x in rest || x == y;
      }
    } else {
      MinExists(rest);
      var m :| m in rest && forall x :: x in rest ==> m <= x;
      var least := if y < m then y else m;
      forall x | x in s
        ensures least <= x
      {
        assert x in rest || x == y;
      }
      assert least in s;
    }
  }

  function Min(s: set<int>): (m: int)
    requires s != {}
    ensures m in s && forall x :: x in s ==> m <= x
  {
    MinExists(s);
    var m :| m in s && forall x :: x in s ==> m <= x;
    m
  }

  /** The ids of a table in ascending order, the order a plain scan returns. */
  function SortedIds(s: set<int>): (ids: seq<int>)
    ensures Increasing(ids)
    ensures forall k :: k in ids <==> k in s
    decreases |s|
  {
    if s == {} then []
    else
      var m := Min(s);
      [m] + SortedIds(s - {m})
  }

  /** Keep the ids whose rows satisfy the selection, in order. */
  function FilterIds(t: Table, ids: seq<int>, sel: Selection): (r: seq<int>)
    requires forall k :: k in ids ==> k in t
    ensures forall k :: k in r <==> k in ids && Matches(sel, Row(t, k))
    ensures Increasing(ids) ==> Increasing(r)
    decreases |ids|
  {
    if |ids| == 0 then []
    else
      var rest := FilterIds(t, ids[1..], sel);
      assert forall k :: k in rest ==> k in ids[1..];
      if Matches(sel, Row(t, ids[0])) then
        assert Increasing(ids) ==> Increasing([ids[0]] + rest) by {
          if Increasing(ids) {
            assert forall k :: k in ids[1..] ==> ids[0] < k;
            PrependIncreasing(ids[0], rest);
          }
        }
        [ids[0]] + rest
      else rest
  }

  lemma PrependIncreasing(x: int, s: seq<int>)
    requires Increasing(s) && forall k :: k in s ==> x < k
    ensures Increasing([x] + s)
  {
    forall i, j | 0 <= i < j < |[x] + s|
      ensures ([x] + s)[i] < ([x] + s)[j]
    {
      assert ([x] + s)[j] == s[j - 1] && s[j - 1] in s;
    }
  }

  /** The ids a `rawQuery(null, where, ...)` cursor yields, in scan order. */
  function ScanIds(t: Table, sel: Selection): (ids: seq<int>)
    ensures Increasing(ids)
    ensures forall k :: k in ids <==> k in t && Matches(sel, Row(t, k))
  {
    FilterIds(t, SortedIds(t.Keys), sel)
  }

  function RowsOf(t: Table, ids: seq<int>): (rows: seq<Form>)
    requires forall k :: k in ids ==> k in t
    ensures |rows| == |ids|
    ensures forall i :: 0 <= i < |ids| ==> rows[i] == Row(t, ids[i])
  {
    seq(|ids|, i requires 0 <= i < |ids| => Row(t, ids[i]))
  }

  /** The rows of a scan, in scan order. */
  function Scan(t: Table, sel: Selection): seq<Form> {
    RowsOf(t, ScanIds(t, sel))
  }

  /** An increasing sequence whose elements all equal k has at most one element. */
  lemma IncreasingSingleton(s: seq<int>, k: int)
    requires Increasing(s) && forall x :: x in s ==> x == k
    ensures s == [] || s == [k]
  {
    assert Sequences.NoDuplicates(s);
    assert forall i :: 0 <= i < |s| ==> s[i] in s;
    Sequences.AllEqualNoDuplicates(s, k);
  }

  /** The aggregate in a projection: MAX(date), or a plain column. */
  datatype Projected = Col(column: Column) | MaxDate

  /** What the provider passes to `formsRepository.rawQuery`. */
  datatype ScanRequest = ScanRequest(
    projection: Option<set<Projected>>,
    selection: Selection,
    sortOrder: Option<SortOrder>,
    groupBy: Option<Column>)

  /**
   * The rows `rawQuery` returns: the WHERE clause filters the table, a
   * GROUP BY keeps one row per group with the greatest date, and an ORDER
   * BY reorders what is left. Without an ORDER BY a plain scan comes back
   * in ascending id order.
   */
  function RawQuery(t: Table, req: ScanRequest): (rows: seq<Form>)
    ensures req.groupBy.None? && req.sortOrder.None? ==> rows == Scan(t, req.selection)
    ensures req.groupBy.None? ==> multiset(rows) == multiset(Scan(t, req.selection))
    ensures req.groupBy.Some? ==>
      NewestView.IsNewestView(Scan(t, req.selection), rows, req.groupBy.value)
    ensures req.sortOrder.Some? ==> SortedBy(req.sortOrder.value, rows)
  {
    var scanned := Scan(t, req.selection);
    var grouped := if req.groupBy.Some? then NewestView.NewestPerGroup(scanned, req.groupBy.value) else scanned;
    if req.sortOrder.Some? then
      var sorted := SortRows(req.sortOrder.value, grouped);
      if req.groupBy.Some? then
        NewestView.PermutedViewIsNewest(scanned, grouped, sorted, req.groupBy.value);
        sorted
      else
        sorted
    else
      grouped
  }

  /** The repository state: the table and the next id the database hands out. */
  datatype FormsRepository = FormsRepository(rows: Table, nextId: int)

  /**
   * Every stored row carries its own id, and every id ever handed out is
   * below `nextId`, so a fresh id is never one that was used before.
   */
  predicate Valid(repo: FormsRepository) {
    && repo.nextId >= 1
    && forall k :: k in repo.rows ==> repo.rows[k].id == Some(k) && k < repo.nextId
  }

  /**
   * Save by identity: a form with an id replaces (or creates) that row, a
   * form without one is stored under a fresh id. Returns the saved id.
   */
  function Save(repo: FormsRepository, f: Form): (r: (FormsRepository, int))
    ensures f.id.Some? ==> r.1 == f.id.value
    ensures f.id.None? ==> r.1 == repo.nextId
    ensures r.0.rows == repo.rows[r.1 := f.(id := Some(r.1))]
    ensures Valid(repo) ==> Valid(r.0)
    ensures Valid(repo) && f.id.None? ==> r.1 !in repo.rows
  {
    match f.id
    case Some(k) =>
      (FormsRepository(repo.rows[k := f], if k < repo.nextId then repo.nextId else k + 1), k)
    case None =>
      var k := repo.nextId;
      (FormsRepository(repo.rows[k := f.(id := Some(k))], k + 1), k)
  }

  /** `_ID = id` holds of a read-back row exactly when the row has that id. */
  lemma MatchesId(t: Table, k: int, id: int)
    requires k in t
    ensures Matches(Equals(Id, Integer(id)), Row(t, k)) <==> k == id
  {
    assert Get(Row(t, k), Id) == Integer(k);
  }

  /** Scanning for `_ID = id` finds exactly the row with that id, if any. */
  lemma ScanById(t: Table, id: int)
    ensures ScanIds(t, Equals(Id, Integer(id))) == if id in t then [id] else []
  {
    var ids := ScanIds(t, Equals(Id, Integer(id)));
    forall k | k in ids
      ensures k == id
    {
      MatchesId(t, k, id);
    }
    IncreasingSingleton(ids, id);
    if id in t {
      MatchesId(t, id, id);
    }
  }
}

=== FILE: results.dfy ===
/** Optional values and success/failure results used throughout the model. */
module Results {

  datatype Option<+T> = None | Some(value: T)

  /** The outcome of a provider call: a value, or the exception it raises. */
  datatype Result<+T, +E> = Ok(value: T) | Err(error: E)
}

=== FILE: sequences.dfy ===
/** Small facts about sequences without repeated elements. */
module Sequences {

  ghost predicate NoDuplicates<T>(s: seq<T>) {
    forall i, j :: 0 <= i < j < |s| ==> s[i] != s[j]
  }

  /** A sequence without repeats has as many distinct elements as entries. */
  lemma {:induction false} NoDuplicatesCardinality<T>(s: seq<T>)
    requires NoDuplicates(s)
    ensures |set x | x in s| == |s|
  {
    if |s| > 0 {
      var front := s[..|s| - 1];
      var last := s[|s| - 1];
      NoDuplicatesCardinality(front);
      assert (set x | x in s) == (set x | x in front) + {last};
      assert last !in front;
    }
  }

  /** A sequence without repeats whose elements all equal k is empty or [k]. */
  lemma AllEqualNoDuplicates<T>(s: seq<T>, k: T)
    requires NoDuplicates(s)
    requires forall i :: 0 <= i < |s| ==> s[i] == k
    ensures s == [] || s == [k]
  {
    NoDuplicatesCardinality(s);
    var elems := set x | x in s;
    if |s| > 0 {
      assert s[0] in s;
      assert elems == {k};
      assert s == [s[0]];
    }
  }

  /** A sequence without repeats holds each value at most once. */
  lemma {:induction false} NoDuplicatesCount<T>(s: seq<T>, x: T)
    requires NoDuplicates(s)
    ensures multiset(s)[x] <= 1
  {
    if |s| > 0 {
      var front := s[..|s| - 1];
      assert s == front + [s[|s| - 1]];
      NoDuplicatesCount(front, x);
      if x == s[|s| - 1] {
        assert x !in front;
      }
    }
  }

  /** A value at two positions is held at least twice. */
  lemma RepeatCount<T>(s: seq<T>, i: int, j: int)
    requires 0 <= i < j < |s| && s[i] == s[j]
    ensures multiset(s)[s[i]] >= 2
  {
    assert s == s[..j] + s[j..];
    assert s[i] in s[..j];
    assert s[j..][0] == s[j];
  }
}

=== FILE: uris.dfy ===
/**
 * Content URIs of the forms provider and the URI matcher built in the
 * provider's static initialiser: the collection path, the collection path
 * followed by one numeric segment, and the newest-form-per-form-id path.
 * A URI is reduced to its authority and its (never empty) path segments.
 */
module Uris {
  import opened Results

  datatype Uri = Uri(authority: string, segments: seq<string>)

  const Authority: string := "org.odk.collect.android.provider.odk.forms"
  const FormsPath: string := "forms"
  const NewestFormsPath: string := "newest_forms_by_form_id"

  /** CONTENT_URI */
  const ContentUri: Uri := Uri(Authority, [FormsPath])
  /** CONTENT_NEWEST_FORMS_BY_FORMID_URI */
  const NewestFormsUri: Uri := Uri(Authority, [NewestFormsPath])

  /** The three addresses the provider recognises. */
  datatype Route = Forms | FormId(id: int) | NewestFormsByFormId

  predicate IsDigit(c: char) {
    '0' <= c <= '9'
  }

  /** The matcher's "#" wildcard: a segment made only of decimal digits. */
  predicate IsNumber(s: string) {
    |s| > 0 && forall i :: 0 <= i < |s| ==> IsDigit(s[i])
  }

  function DigitValue(c: char): nat
    requires IsDigit(c)
  {
    (c as int) - ('0' as int)
  }

  function DigitChar(d: nat): char
    requires d < 10
  {
    ((d + '0' as int) as char)
  }

  /** 10 to the power `k`. */
  function Pow10(k: nat): (p: nat)
    ensures p >= 1
  {
    if k == 0 then 1 else 10 * Pow10(k - 1)
  }

  /**
   * Decimal value of a digit string (the id taken from the URI). A string of
   * k digits denotes a number below 10^k; `ParseNatToString` is its inverse.
   */
  function ParseNumber(s: string): (n: nat)
    requires forall i :: 0 <= i < |s| ==> IsDigit(s[i])
    ensures n < Pow10(|s|)
    decreases |s|
  {
    if |s| == 0 then 0
    else ParseNumber(s[..|s| - 1]) * 10 + DigitValue(s[|s| - 1])
  }

  function NatToString(n: nat): (s: string)
    ensures IsNumber(s)
    decreases n
  {
    if n < 10 then [DigitChar(n)] else NatToString(n / 10) + [DigitChar(n % 10)]
  }

  /** String.valueOf for a long. */
  function IntToString(n: int): string {
    if n < 0 then "-" + NatToString(-n) else NatToString(n)
  }

  lemma {:induction false} ParseNatToString(n: nat)
    ensures ParseNumber(NatToString(n)) == n
    decreases n
  {
    if n >= 10 {
      var s := NatToString(n);
      ParseNatToString(n / 10);
      assert s[..|s| - 1] == NatToString(n / 10);
    }
  }

  /** The match code UriMatcher reports, before the id is read. */
  datatype MatchCode = FormsCode | FormIdCode | NewestFormsByFormIdCode | NoMatch

  function Match(uri: Uri): (m: MatchCode)
    ensures m == FormsCode <==> uri == ContentUri
    ensures m == NewestFormsByFormIdCode <==> uri == NewestFormsUri
    ensures m == FormIdCode <==>
      uri.authority == Authority && |uri.segments| == 2
      && uri.segments[0] == FormsPath && IsNumber(uri.segments[1])
  {
    if uri.authority != Authority then NoMatch
    else if uri.segments == [FormsPath] then FormsCode
    else if |uri.segments| == 2 && uri.segments[0] == FormsPath && IsNumber(uri.segments[1]) then FormIdCode
    else if uri.segments == [NewestFormsPath] then NewestFormsByFormIdCode
    else NoMatch
  }

  /**
   * Route classification: the match code, with the id read from the last
   * segment for the single-form address. Anything else is rejected.
   */
  function Classify(uri: Uri): (r: Option<Route>)
    ensures r == Some(Forms) <==> uri == ContentUri
    ensures r == Some(NewestFormsByFormId) <==> uri == NewestFormsUri
    ensures r.Some? && r.value.FormId? <==> Match(uri) == FormIdCode
    ensures r.Some? && r.value.FormId? ==> r.value.id == ParseNumber(uri.segments[1])
    ensures r.None? <==> Match(uri) == NoMatch
  {
    match Match(uri)
    case FormsCode => Some(Forms)
    case NewestFormsByFormIdCode => Some(NewestFormsByFormId)
    case NoMatch => None
    case FormIdCode =>
      Some(FormId(ParseNumber(uri.segments[1])))
  }

  /** Uri.withAppendedPath(CONTENT_URI, String.valueOf(id)) */
  function ItemUri(id: int): (u: Uri)
    ensures u.authority == Authority && |u.segments| == 2 && u.segments[0] == FormsPath
    // a negative id would be written with a '-' that the "#" wildcard refuses
    ensures Match(u) == FormIdCode <==> id >= 0
  {
    var u := Uri(Authority, [FormsPath, IntToString(id)]);
    assert id < 0 ==> !IsDigit(u.segments[1][0]);
    u
  }

  /** The item URI of a non-negative id is classified back to that id. */
  lemma ItemUriRoundTrip(id: int)
    requires id >= 0
    ensures Classify(ItemUri(id)) == Some(FormId(id))
  {
    ParseNatToString(id);
  }
}

=== FILE: values.dfy ===
/**
 * SQLite storage values and the order SQLite uses to compare them
 * (NULL sorts before every INTEGER, every INTEGER before every TEXT,
 * and TEXT compares character by character under the BINARY collation).
 * MAX() over a column uses this order and ignores NULL, which is the same
 * as taking the greatest element when NULL is the least one.
 */
module SqlValues {

  datatype Value = Null | Integer(n: int) | Text(s: string)

  /** Lexicographic order on strings: a prefix sorts first. */
  predicate TextLe(s: string, t: string)
    decreases |s|
  {
    if |s| == 0 then true
    else if |t| == 0 then false
    else if s[0] < t[0] then true
    else if t[0] < s[0] then false
    else TextLe(s[1..], t[1..])
  }

  predicate ValueLe(a: Value, b: Value) {
    match (a, b)
    case (Null, _) => true
    case (Integer(_), Null) => false
    case (Integer(x), Integer(y)) => x <= y
    case (Integer(_), Text(_)) => true
    case (Text(_), Text(t)) => TextLe(a.s, t)
    case (Text(_), _) => false
  }

  predicate ValueLt(a: Value, b: Value) {
    !ValueLe(b, a)
  }

  lemma {:induction false} TextLeReflexive(s: string)
    ensures TextLe(s, s)
    decreases |s|
  {
    if |s| > 0 {
      TextLeReflexive(s[1..]);
    }
  }

  lemma {:induction false} TextLeTotal(s: string, t: string)
    ensures TextLe(s, t) || TextLe(t, s)
    decreases |s|
  {
    if |s| > 0 && |t| > 0 && s[0] == t[0] {
      TextLeTotal(s[1..], t[1..]);
    }
  }

  lemma {:induction false} TextLeTransitive(s: string, t: string, u: string)
    requires TextLe(s, t) && TextLe(t, u)
    ensures TextLe(s, u)
    decreases |s|
  {
    if |s| > 0 && |t| > 0 && |u| > 0 && s[0] == t[0] && t[0] == u[0] {
      TextLeTransitive(s[1..], t[1..], u[1..]);
    }
  }

  /** ValueLe is a total order on values: the order MAX() ranks them by. */
  lemma ValueLeReflexive(a: Value)
    ensures ValueLe(a, a)
  {
    if a.Text? {
      TextLeReflexive(a.s);
    }
  }

  lemma ValueLeTotal(a: Value, b: Value)
    ensures ValueLe(a, b) || ValueLe(b, a)
  {
    if a.Text? && b.Text? {
      TextLeTotal(a.s, b.s);
    }
  }

  lemma ValueLeTransitive(a: Value, b: Value, c: Value)
    requires ValueLe(a, b) && ValueLe(b, c)
    ensures ValueLe(a, c)
  {
    if a.Text? && b.Text? && c.Text? {
      TextLeTransitive(a.s, b.s, c.s);
    }
  }
}
